=== FILE: README.md ===
# Payment form: a Dafny model

This project models `PaymentFormComponent`, the Angular payment-form component of the payment-elements library. The model has three parts:

- **Input formatters.** `formatCardNumber`, `formatExpiry` and `formatCVV` are modelled as pure functions on strings.
- **Field validators.** These are the validators of the reactive form group:
  - `cardHolder` uses `required` and `minLength(2)`.
  - `cardNumber` uses `required` and `cardNumberValidator`.
  - `expiryDate` uses `required` and `expiryDateValidator`.
  - `cvv` uses `required` and `pattern(/^\d{3,4}$/)`.

  Each is a function from the control's value to the set of error keys it reports. A control is valid exactly when that set is empty.
- **The component.** It is an immutable state record holding:
  - the inputs `amount`, `currency` and `gateway`;
  - the signals `selectedGateway`, `isProcessing`, `statusMessage` and `messageType`;
  - the form group;
  - the sequence of events emitted on `gatewayChange`, `paymentSuccess` and `paymentError`.

  `selectGateway`, `handleSubmit` and `processPayment` are transitions on that record.

Modules, one per file:

| file | module | contents |
|---|---|---|
| text.dfy | `Text` | JavaScript `\d` and `\s`, `substring`, and the global replaces `/\D/g` and `/\s/g` |
| formatters.dfy | `Formatters` | the three input formatters and their shape, idempotence and fixed-point lemmas |
| validators.dfy | `Validators` | error keys, the four field validators, the clock, and the expiry boundary lemmas |
| form_state.dfy | `FormState` | controls (value, touched, stored errors), the group, `setValue`, `markAsTouched`, `reset` and validity |
| payment_form.dfy | `PaymentForm` | the component state, its transitions, and the submission-flow lemmas |

Modelling choices:

- **Stored errors.** Angular validates a control when its value is written, and `valid` reads the stored result. So each control stores its errors.
  - `SyncedAt(form, now)` says the stored errors are what the validators report at clock `now`.
  - `Synced(form)` says they are what the validators reported at some clock. This is a clock-free invariant that every transition keeps.
- **Parameters for outside effects.**
  - `new Date()` becomes a `Clock` parameter.
  - `Math.random()` and the `setTimeout` delay become an `Outcome` parameter: `Approved(token)`, `Declined` or `Threw`.
  - A settlement is one atomic step after the start of `processPayment`.
- **Reset.** `reset()` writes `null` to every control. Every validator here treats `null` as the empty string, so the model writes `""`.
- **Two behaviours worth noting.** The model follows the code in both:
  - `01/99` is read as January 2099, because the year is `'20' + YY`. It is not 1999.
  - `handleSubmit` does not check `isProcessing`, so a second submit while one is in flight is not rejected.

## Model

Every source cell refers to `projects/payment-elements/src/lib/components/payment-form/payment-form.component.ts`.

| member | source | states |
|---|---|---|
| Text.IsDigit | projects/payment-elements/src/lib/components/payment-form/payment-form.component.ts:78 | `\d` and `[0-9]` without the `u` flag: exactly the ASCII digits `0`..`9` |
| Text.IsWhitespace | projects/payment-elements/src/lib/components/payment-form/payment-form.component.ts:77 | `\s`: the ECMAScript WhiteSpace and LineTerminator characters (tab, LF, VT, FF, CR, space, NBSP, U+1680, U+2000..U+200A, U+2028, U+2029, U+202F, U+205F, U+3000, U+FEFF) |
| Text.Prefix | projects/payment-elements/src/lib/components/payment-form/payment-form.component.ts:116 | `substring(0, n)` returns the first `min(len, n)` characters and is a prefix of the input |
| Text.Utf16Length | projects/payment-elements/src/lib/components/payment-form/payment-form.component.ts:64 | `length` in UTF-16 code units: between the character count and twice that; exact per character and additive by Utf16LengthOfChar and Utf16LengthAppend |
| Text.Utf16LengthZero | projects/payment-elements/src/lib/components/payment-form/payment-form.component.ts:64 | a string has no code units exactly when it is empty |
| Text.Utf16LengthOfBmp | projects/payment-elements/src/lib/components/payment-form/payment-form.component.ts:64 | on characters of the Basic Multilingual Plane, `length` is the character count |
| Text.Utf16LengthOfChar | projects/payment-elements/src/lib/components/payment-form/payment-form.component.ts:64 | one character is one code unit up to U+FFFF and two above it |
| Text.Utf16LengthAppend | projects/payment-elements/src/lib/components/payment-form/payment-form.component.ts:64 | code units add up over concatenation, so with Utf16LengthOfChar they fix `length` for every string |
| Text.DigitsOnly | projects/payment-elements/src/lib/components/payment-form/payment-form.component.ts:129 | removing non-digits leaves only digits and never lengthens the string |
| Text.StripWhitespace | projects/payment-elements/src/lib/components/payment-form/payment-form.component.ts:77 | removing `\s` leaves no whitespace and never lengthens the string |
| Text.DigitsOnlyKeepsDigits | projects/payment-elements/src/lib/components/payment-form/payment-form.component.ts:129 | every digit of the input survives `replace(/\D/g, '')` with its multiplicity |
| Text.DigitsOnlyOfDigits | projects/payment-elements/src/lib/components/payment-form/payment-form.component.ts:142 | removing non-digits from an all-digit string returns it unchanged |
| Text.StripWhitespaceKeepsOthers | projects/payment-elements/src/lib/components/payment-form/payment-form.component.ts:77 | every non-whitespace character survives `replace(/\s/g, '')` with its multiplicity |
| Text.StripWhitespaceOfNone | projects/payment-elements/src/lib/components/payment-form/payment-form.component.ts:77 | stripping whitespace from a string that has none returns it unchanged |
| Text.StripWhitespaceOfDigits | projects/payment-elements/src/lib/components/payment-form/payment-form.component.ts:77 | stripping whitespace from an all-digit string returns it unchanged |
| Text.DigitsOnlyAppend | projects/payment-elements/src/lib/components/payment-form/payment-form.component.ts:129 | removing non-digits distributes over concatenation |
| Text.StripWhitespaceAppend | projects/payment-elements/src/lib/components/payment-form/payment-form.component.ts:158 | removing whitespace distributes over concatenation |
| Text.DigitsOnlyAfterStrip | projects/payment-elements/src/lib/components/payment-form/payment-form.component.ts:113 | stripping `\s+` before `[^0-9]` gives the same digits as stripping non-digits alone |
| Text.StripWhitespaceOfDigitsAndSpaces | projects/payment-elements/src/lib/components/payment-form/payment-form.component.ts:158 | on digits and whitespace, stripping whitespace and stripping non-digits agree |
| Text.StripWhitespaceAllDigits | projects/payment-elements/src/lib/components/payment-form/payment-form.component.ts:77-78 | the stripped value is all digits exactly when the value held only digits and whitespace |
| Formatters.Group | projects/payment-elements/src/lib/components/payment-form/payment-form.component.ts:118 | `match(/.{1,4}/g)?.join(' ') \|\| value` is never shorter than its input |
| Formatters.FormatCardNumber | projects/payment-elements/src/lib/components/payment-form/payment-form.component.ts:111-125 | `formatCardNumber`: its contract is stated by CardNumberFormatShape (grouped, first 19 digits in order), CardNumberFormatIdempotent and CardNumberFormatFixedPoints |
| Formatters.GroupShape | projects/payment-elements/src/lib/components/payment-form/payment-form.component.ts:118 | grouping digits gives four-digit runs separated by single spaces, with a last run of one to four digits |
| Formatters.GroupDigits | projects/payment-elements/src/lib/components/payment-form/payment-form.component.ts:118 | the digits of the grouped string are the input digits, in order |
| Formatters.GroupStripped | projects/payment-elements/src/lib/components/payment-form/payment-form.component.ts:118 | stripping the spaces from the grouped string gives back the input digits |
| Formatters.GroupedSplit | projects/payment-elements/src/lib/components/payment-form/payment-form.component.ts:118 | a grouped string longer than four characters is its first run, a space, and a grouped rest |
| Formatters.GroupOfGrouped | projects/payment-elements/src/lib/components/payment-form/payment-form.component.ts:118 | regrouping the digits of a grouped string rebuilds that string |
| Formatters.CardNumberFormatShape | projects/payment-elements/src/lib/components/payment-form/payment-form.component.ts:113-118 | the output is grouped; its digits, and the output with spaces removed, are the first 19 input digits in order; at most 19 digits |
| Formatters.CardNumberFormatIdempotent | projects/payment-elements/src/lib/components/payment-form/payment-form.component.ts:113-118 | formatting a formatted card number changes nothing |
| Formatters.CardNumberFormatFixedPoints | projects/payment-elements/src/lib/components/payment-form/payment-form.component.ts:113-118 | the formatter leaves a string alone exactly when it is grouped with at most 19 digits |
| Formatters.ExpiryPieces | projects/payment-elements/src/lib/components/payment-form/payment-form.component.ts:132 | `MM` + `/` + up to two digits keeps the first four digits of the input |
| Formatters.FormatExpiry | projects/payment-elements/src/lib/components/payment-form/payment-form.component.ts:127-137 | `formatExpiry`: its contract is stated by ExpiryFormatShape (digits, then `MM/` and up to two digits), ExpiryFormatIdempotent and ExpiryFormatFixedPoints |
| Formatters.ExpiryFormatShape | projects/payment-elements/src/lib/components/payment-form/payment-form.component.ts:129-133 | fewer than two digits: just the digits; otherwise the first two digits, `/`, and at most two more digits; at most 5 characters; the digits are the first four input digits |
| Formatters.ExpiryFormatIdempotent | projects/payment-elements/src/lib/components/payment-form/payment-form.component.ts:129-133 | formatting a formatted expiry changes nothing |
| Formatters.ExpiryFormatFixedPoints | projects/payment-elements/src/lib/components/payment-form/payment-form.component.ts:129-133 | the formatter leaves a string alone exactly when it is a draft it could have produced |
| Formatters.SlashedDigits | projects/payment-elements/src/lib/components/payment-form/payment-form.component.ts:132 | the digits of `a/b` are those of `a` followed by those of `b` |
| Formatters.ExpiryDraftDigits | projects/payment-elements/src/lib/components/payment-form/payment-form.component.ts:129-133 | a `DD/` draft with up to two more digits is rebuilt unchanged from its digits |
| Formatters.ExpiryFormatNeverTwoLong | projects/payment-elements/src/lib/components/payment-form/payment-form.component.ts:131-133 | the expiry formatter never outputs exactly two characters |
| Formatters.FormatCvv | projects/payment-elements/src/lib/components/payment-form/payment-form.component.ts:139-143 | `formatCVV`: its contract is stated by CvvFormatDigits (exactly the input digits, identity on digit strings, idempotent) |
| Formatters.CvvFormatDigits | projects/payment-elements/src/lib/components/payment-form/payment-form.component.ts:142 | the CVV formatter keeps exactly the input digits; it is the identity on all-digit strings and idempotent |
| Validators.RequiredErrors | projects/payment-elements/src/lib/components/payment-form/payment-form.component.ts:64-67 | `required` fails exactly the empty value |
| Validators.CardHolderErrors | projects/payment-elements/src/lib/components/payment-form/payment-form.component.ts:64 | no error exactly from two UTF-16 code units on; `required` iff empty; `minlength` iff one code unit; no other key |
| Validators.CardNumberPattern | projects/payment-elements/src/lib/components/payment-form/payment-form.component.ts:76-80 | `cardNumberValidator` passes: its meaning is stated by CardNumberAccepts (digits and whitespace holding 13 to 19 digits) and CardNumberDigitCount |
| Validators.CardNumberErrors | projects/payment-elements/src/lib/components/payment-form/payment-form.component.ts:65 | `required` iff empty; the only other key is `invalidCardNumber` |
| Validators.DigitValue | projects/payment-elements/src/lib/components/payment-form/payment-form.component.ts:89 | a digit's `parseInt` value is 0..9 |
| Validators.ExpiryShaped | projects/payment-elements/src/lib/components/payment-form/payment-form.component.ts:84 | `/^\d{2}\/\d{2}$/`: its role in the verdict is stated by ExpiryRejectionOrder and FormattedExpiryShaped |
| Validators.ExpiryMonth | projects/payment-elements/src/lib/components/payment-form/payment-form.component.ts:88-89 | the parsed month is at most 99 |
| Validators.ExpiryYear | projects/payment-elements/src/lib/components/payment-form/payment-form.component.ts:90 | `parseInt('20' + YY)` is in 2000..2099 |
| Validators.ExpiryCheck | projects/payment-elements/src/lib/components/payment-form/payment-form.component.ts:82-104 | the expiry validator reports nothing, `invalidExpiry` or `expiredCard`, never two keys |
| Validators.ExpiryWellFormed | projects/payment-elements/src/lib/components/payment-form/payment-form.component.ts:84-97 | `MM/YY` of digits with the month in 1..12: by ExpiryRejectionOrder, exactly the values the expiry validator does not reject as `invalidExpiry` |
| Validators.ExpiryErrors | projects/payment-elements/src/lib/components/payment-form/payment-form.component.ts:66 | `required` iff empty; the keys are among `required`, `invalidExpiry` and `expiredCard` |
| Validators.CvvErrors | projects/payment-elements/src/lib/components/payment-form/payment-form.component.ts:67 | no error exactly for three or four digits; `required` iff empty; `pattern` for a non-empty value that is not three or four digits |
| Validators.BlankCardHolderAccepted | projects/payment-elements/src/lib/components/payment-form/payment-form.component.ts:64 | the name is not trimmed: two blanks pass, one blank is `minlength`, empty is `required`; one emoji is two code units and passes |
| Validators.CardNumberAccepts | projects/payment-elements/src/lib/components/payment-form/payment-form.component.ts:76-80 | the card-number control passes exactly for digits and whitespace holding 13 to 19 digits |
| Validators.CardNumberDigitCount | projects/payment-elements/src/lib/components/payment-form/payment-form.component.ts:78 | on digit strings the card-number control is a 13..19 length check, so 12 and 20 digits fail |
| Validators.EmptyCardNumberRejected | projects/payment-elements/src/lib/components/payment-form/payment-form.component.ts:77-79 | the empty card number fails both `required` and `invalidCardNumber` |
| Validators.ExpiryRejectionOrder | projects/payment-elements/src/lib/components/payment-form/payment-form.component.ts:84-101 | `invalidExpiry` iff not `DD/DD` with month 1..12, whatever the clock; `expiredCard` only for well-formed values |
| Validators.ExpiryAcceptsByMonthCount | projects/payment-elements/src/lib/components/payment-form/payment-form.component.ts:91-103 | with a real clock, accepted iff well-formed and (year, month) is not before (currentYear, currentMonth) |
| Validators.ExpiryMonotone | projects/payment-elements/src/lib/components/payment-form/payment-form.component.ts:99-101 | once expired, always expired as the clock advances; accepted now means accepted earlier |
| Validators.ExpiryOf | projects/payment-elements/src/lib/components/payment-form/payment-form.component.ts:84-90 | builds the `MM/YY` text that parses back to a given month of 2000..2099 |
| Validators.ExpiryBoundary | projects/payment-elements/src/lib/components/payment-form/payment-form.component.ts:99-103 | the current month is accepted; the month before it is `expiredCard` |
| Validators.ExpiryExamples | projects/payment-elements/src/lib/components/payment-form/payment-form.component.ts:84-97 | `01/99` is accepted up to January 2099; `13/30`, `00/30` and `1/30` are `invalidExpiry`; empty is `required` plus `invalidExpiry` |
| Validators.ExpiryVerdicts | projects/payment-elements/src/lib/components/payment-form/payment-form.component.ts:82-104 | the expiry control's errors are one of four sets exactly |
| FormState.FieldErrors | projects/payment-elements/src/lib/components/payment-form/payment-form.component.ts:64-67 | the validator set of each control: stated field by field by ValidIffFieldRules and SyncedAtFields |
| FormState.EmptyForm | projects/payment-elements/src/lib/components/payment-form/payment-form.component.ts:63-68 | the group as built: every value empty, untouched, and validated at the given clock |
| FormState.SetValue | projects/payment-elements/src/lib/components/payment-form/payment-form.component.ts:124 | `patchValue` writes one control's value and reruns its validators; touched and the other controls are kept |
| FormState.MarkAllTouched | projects/payment-elements/src/lib/components/payment-form/payment-form.component.ts:148-150 | `markAsTouched` on every control; values and errors kept |
| FormState.Valid | projects/payment-elements/src/lib/components/payment-form/payment-form.component.ts:146 | the group is valid: stated by ValidIffNoControlErrors (each control error-free) and ValidIffFieldRules (the four field rules) |
| FormState.ExpiryPlausibleIffSomeClock | projects/payment-elements/src/lib/components/payment-form/payment-form.component.ts:82-104 | the expiry errors at any clock are plausible, and plausible errors are the verdict at some clock |
| FormState.SyncedAtIsSynced | projects/payment-elements/src/lib/components/payment-form/payment-form.component.ts:63-68 | errors validated at one clock are consistent with the clock-free invariant |
| FormState.SetValueKeepsSynced | projects/payment-elements/src/lib/components/payment-form/payment-form.component.ts:124 | writing a value keeps the stored errors in step with the values |
| FormState.SyncedAtFields | projects/payment-elements/src/lib/components/payment-form/payment-form.component.ts:63-68 | stored errors validated at `now`, control by control |
| FormState.ValidIffNoControlErrors | projects/payment-elements/src/lib/components/payment-form/payment-form.component.ts:146 | the group is valid exactly when none of its four controls has an error |
| FormState.MarkAllTouchedKeepsVerdict | projects/payment-elements/src/lib/components/payment-form/payment-form.component.ts:148-150 | marking touched changes neither validity nor the stored errors' consistency |
| FormState.EmptyFormInvalid | projects/payment-elements/src/lib/components/payment-form/payment-form.component.ts:63-68 | every empty control reports `required`, so the new form is invalid |
| FormState.ValidIffFieldRules | projects/payment-elements/src/lib/components/payment-form/payment-form.component.ts:63-68 | validity is the conjunction of the four field rules, each stated independently of the validators (the name rule in UTF-16 code units) |
| FormState.ValidSyncedWellFormed | projects/payment-elements/src/lib/components/payment-form/payment-form.component.ts:63-68 | a valid group holds a name of 2+ code units, 13..19 card digits once whitespace is stripped, a well-formed expiry and a 3..4 digit CVV |
| PaymentForm.Create | projects/payment-elements/src/lib/components/payment-form/payment-form.component.ts:38-68 | the defaults: empty amount, `USD`, `stripe` selected, idle, empty status message and type, the empty form validated at the clock (invalid), no events |
| PaymentForm.BindInputs | projects/payment-elements/src/lib/components/payment-form/payment-form.component.ts:38-40 | binding inputs changes only the inputs; `selectedGateway`, processing flag, message, form and events are kept |
| PaymentForm.OnInit | projects/payment-elements/src/lib/components/payment-form/payment-form.component.ts:71-73 | `ngOnInit` copies the gateway input into `selectedGateway`; inputs, processing flag, message, form and events are kept |
| PaymentForm.EditField | projects/payment-elements/src/lib/components/payment-form/payment-form.component.ts:136 | typing into a field writes that control, revalidates it at the clock and keeps its touched flag; no event, no other state changes |
| PaymentForm.FormatCardNumberInput | projects/payment-elements/src/lib/components/payment-form/payment-form.component.ts:111-125 | the card-number control receives the grouped first 19 input digits, revalidated, touched flag kept; nothing else changes |
| PaymentForm.FormatExpiryInput | projects/payment-elements/src/lib/components/payment-form/payment-form.component.ts:127-137 | the expiry control receives an `MM/YY` draft of the first four input digits, revalidated at the clock, touched flag kept; nothing else changes |
| PaymentForm.SelectGateway | projects/payment-elements/src/lib/components/payment-form/payment-form.component.ts:106-109 | always sets the selection and appends one `gatewayChange`, in any state; form, processing flag, message and inputs are kept |
| PaymentForm.AmountOrDefault | projects/payment-elements/src/lib/components/payment-form/payment-form.component.ts:161 | `amount || '0'`: the empty amount becomes `"0"`, a non-empty amount is kept |
| PaymentForm.BuildPaymentData | projects/payment-elements/src/lib/components/payment-form/payment-form.component.ts:154-164 | the card number loses exactly its whitespace (every other character kept with its multiplicity); holder, expiry and CVV are the control values; amount defaulted; currency and selected gateway copied |
| PaymentForm.StartProcessing | projects/payment-elements/src/lib/components/payment-form/payment-form.component.ts:170-172 | raises `isProcessing` and clears the status message and type; form, events, selection and inputs are kept |
| PaymentForm.Settle | projects/payment-elements/src/lib/components/payment-form/payment-form.component.ts:176-224 | `isProcessing` lowered on every path; exactly one event appended; selection and inputs kept; success resets the form with the success text; decline and exception keep the form with their texts |
| PaymentForm.OutcomeEvent | projects/payment-elements/src/lib/components/payment-form/payment-form.component.ts:192-219 | the event each outcome emits: its contents are stated by SubmitApproved (a `txn_` id with the data's gateway, amount, currency and holder) and SubmitFailed (the two error codes) |
| PaymentForm.ProcessPayment | projects/payment-elements/src/lib/components/payment-form/payment-form.component.ts:169-225 | `processPayment`: its contract is stated by ProcessingWindow (raised, then lowered, one event) and by Settle and StartProcessing |
| PaymentForm.HandleSubmit | projects/payment-elements/src/lib/components/payment-form/payment-form.component.ts:145-167 | `handleSubmit`: its contract is stated by SubmitInvalidForm, SubmitValidFormSettlesOnce, SubmitApproved, SubmitFailed and SubmitEndsIdle |
| PaymentForm.SubmitInvalidForm | projects/payment-elements/src/lib/components/payment-form/payment-form.component.ts:146-152 | an invalid submit marks every control touched and changes nothing else: no processing, no event |
| PaymentForm.SubmitValidFormSettlesOnce | projects/payment-elements/src/lib/components/payment-form/payment-form.component.ts:145-225 | a valid submit appends exactly one event: `paymentSuccess` iff approved, `paymentError` otherwise; ends idle |
| PaymentForm.SubmitApproved | projects/payment-elements/src/lib/components/payment-form/payment-form.component.ts:183-200 | on approval the form is reset and `success` is shown; the event carries a `txn_` id and the submitted gateway, amount, currency and card holder |
| PaymentForm.SubmitFailed | projects/payment-elements/src/lib/components/payment-form/payment-form.component.ts:201-221 | on decline or exception the form is kept and `error` is shown; the code is `PAYMENT_DECLINED` or `PROCESSING_ERROR` |
| PaymentForm.SubmittedDataWellFormed | projects/payment-elements/src/lib/components/payment-form/payment-form.component.ts:154-164 | the submitted card number is its 13..19 digits with whitespace removed; the holder has 2+ code units; amount defaults to `'0'`; the selected gateway is used |
| PaymentForm.ProcessingWindow | projects/payment-elements/src/lib/components/payment-form/payment-form.component.ts:170-223 | processing is raised at the start and lowered at settlement, with one event |
| PaymentForm.SubmitEndsIdle | projects/payment-elements/src/lib/components/payment-form/payment-form.component.ts:145-225 | a submit from an idle component ends idle, valid form or not |
| PaymentForm.GatewaySwitchDuringProcessing | projects/payment-elements/src/lib/components/payment-form/payment-form.component.ts:169-225 | switching the gateway in flight emits `gatewayChange` and then an outcome that still names the gateway captured at submit |
| PaymentForm.TransitionsKeepConsistent | projects/payment-elements/src/lib/components/payment-form/payment-form.component.ts:106-225 | submitting, selecting a gateway and editing a field keep the stored errors in step and the message and its type paired |
| PaymentForm.FormattedCardNumberAccepted | projects/payment-elements/src/lib/components/payment-form/payment-form.component.ts:111-125 | a formatted card number passes its validator exactly when the raw input held 13 or more digits |
| PaymentForm.FormattedExpiryShaped | projects/payment-elements/src/lib/components/payment-form/payment-form.component.ts:127-137 | a formatted expiry has the `MM/YY` shape exactly when the raw input held 4 or more digits |
| PaymentForm.FormattedCvvAccepted | projects/payment-elements/src/lib/components/payment-form/payment-form.component.ts:139-143 | the digits of a raw CVV pass the CVV rule exactly when there are three or four (the formatter writes only the DOM, not the control) |
| PaymentForm.EmptyFormSubmit | projects/payment-elements/src/lib/components/payment-form/payment-form.component.ts:145-152 | submitting a new component only marks its empty controls touched and emits nothing |
| PaymentForm.JaneDoeHolderPasses | projects/payment-elements/src/lib/components/payment-form/payment-form.component.ts:64 | `Jane Doe` passes the card-holder rules |
| PaymentForm.JaneDoeNumberPasses | projects/payment-elements/src/lib/components/payment-form/payment-form.component.ts:76-80 | `4242424242424242` passes the card-number rules |
| PaymentForm.JaneDoeExpiryPasses | projects/payment-elements/src/lib/components/payment-form/payment-form.component.ts:82-104 | `12/30` passes the expiry rules in June 2025 |
| PaymentForm.JaneDoeCvvPasses | projects/payment-elements/src/lib/components/payment-form/payment-form.component.ts:67 | `123` passes the CVV rules |
| PaymentForm.JaneDoeValid | projects/payment-elements/src/lib/components/payment-form/payment-form.component.ts:63-68 | those details, validated in June 2025, make a valid form |
| PaymentForm.JaneDoeScenario | projects/payment-elements/src/lib/components/payment-form/payment-form.component.ts:145-225 | submitting them emits one event: a `txn_` success naming Jane Doe with amount `0` and a reset form, or a decline that keeps the form |

## Left out

- Formatters.Group: its own contract gives only the length bound. The shape, the digits and the round trip are the lemmas GroupShape, GroupDigits, GroupStripped and GroupOfGrouped.
- Validators.CardNumberErrors: its own contract does not say when `invalidCardNumber` is reported. That is stated by CardNumberAccepts and CardNumberDigitCount.
- Validators.ExpiryErrors: its own contract does not say when the expiry is accepted. That is stated by ExpiryRejectionOrder, ExpiryAcceptsByMonthCount and ExpiryVerdicts.
- PaymentForm.SubmitFailed: on an exception, the model puts the throw before any effect inside `try`. The only call that could throw there is the delay promise, which has no effects of its own.
- `formatCVV` writes only the DOM input and never calls `patchValue`. The model has the pure function FormatCvv, but the control sees the value the user typed.
- Writing `input.value` back into the DOM, the template, the stylesheet and the blur events that mark a control touched are not modelled. The model has no DOM.
- `console.log` at line 174 is left out. It is output only.
- The `setTimeout` delay, `Math.random()` and the base-36 formatting of the transaction id are not modelled. They are the `Outcome` parameter, and its `token` stands for the random characters.
- `new Date()` is the `Clock` parameter.
- The `isFormValid` computed at line 60 reads no signal, so it is memoized once. `handleSubmit` does not use it, and it is left out.
- Concurrency is not modelled: a settlement is one atomic step after `StartProcessing`. Interleaving is shown only for `selectGateway`, by GatewaySwitchDuringProcessing.
- The gateway list and its display names (lines 54–57) are static data for the template.
- `Currency`, `PaymentData` and the event types come from a types file that is not part of this model. `Currency` is an unconstrained string.
- `elements-registry.ts` and `main.ts` are not part of this model. They hold custom-element registration and bootstrap, with no logic of their own.
- Strings are sequences of Unicode characters. A lone surrogate, which a JavaScript string can hold, is not representable. Where the source reads `length` (`minLength(2)`), the model counts UTF-16 code units with `Utf16Length`. Every other rule looks only at ASCII digits, spaces and `/`, so characters and code units agree there.

=== FILE: form_state.dfy ===
/**
 The reactive form group of the payment form: four controls, each holding a
 value, a touched flag and the errors its validators reported when the value
 last changed. Angular validates when a value is written, not when the form
 is read, so the expiry control's errors reflect the clock at its last write.
 */
module FormState {
  import opened Text
  import opened Validators

  /** The controls of the group, in the order `fb.group` declares them. */
  datatype Field = CardHolder | CardNumber | ExpiryDate | Cvv

  datatype Control = Control(value: string, touched: bool, errors: set<ErrorKey>)

  datatype Form = Form(cardHolder: Control, cardNumber: Control, expiryDate: Control, cvv: Control)

  /** The errors the validators of field `f` report for value `v` at clock `now`. */
  function FieldErrors(f: Field, v: string, now: Clock): set<ErrorKey> {
    match f
    case CardHolder => CardHolderErrors(v)
    case CardNumber => CardNumberErrors(v)
    case ExpiryDate => ExpiryErrors(v, now)
    case Cvv => CvvErrors(v)
  }

  function Get(form: Form, f: Field): Control {
    match f
    case CardHolder => form.cardHolder
    case CardNumber => form.cardNumber
    case ExpiryDate => form.expiryDate
    case Cvv => form.cvv
  }

  /** `form` with the control of `f` replaced by `c` and every other control as it was. */
  function Put(form: Form, f: Field, c: Control): (r: Form)
    ensures Get(r, f) == c
    ensures forall g :: g != f ==> Get(r, g) == Get(form, g)
  {
    match f
    case CardHolder => form.(cardHolder := c)
    case CardNumber => form.(cardNumber := c)
    case ExpiryDate => form.(expiryDate := c)
    case Cvv => form.(cvv := c)
  }

  /**
   The group as `fb.group` builds it and as `reset()` leaves it: every value
   empty (`reset()` writes null, which every validator here treats as the
   empty string), nothing touched, and the validators rerun on the empty value.
   */
  function EmptyForm(now: Clock): (r: Form)
    ensures forall f :: Get(r, f).value == "" && !Get(r, f).touched
    ensures SyncedAt(r, now)
  {
    Form(
      Control("", false, CardHolderErrors("")),
      Control("", false, CardNumberErrors("")),
      Control("", false, ExpiryErrors("", now)),
      Control("", false, CvvErrors("")))
  }

  /** `setValue`/`patchValue` of one control: the value is written and its validators rerun; touched is kept. */
  function SetValue(form: Form, f: Field, v: string, now: Clock): (r: Form)
    ensures Get(r, f).value == v
    ensures Get(r, f).touched == Get(form, f).touched
    ensures Get(r, f).errors == FieldErrors(f, v, now)
    ensures forall g :: g != f ==> Get(r, g) == Get(form, g)
  {
    Put(form, f, Control(v, Get(form, f).touched, FieldErrors(f, v, now)))
  }

  /** `markAsTouched` on every control: values and errors are kept. */
  function MarkAllTouched(form: Form): (r: Form)
    ensures forall f :: Get(r, f).touched
    ensures forall f :: Get(r, f).value == Get(form, f).value && Get(r, f).errors == Get(form, f).errors
  {
    Form(
      form.cardHolder.(touched := true),
      form.cardNumber.(touched := true),
      form.expiryDate.(touched := true),
      form.cvv.(touched := true))
  }

  /** The group is valid when no control reports an error (there are no group-level or async validators). */
  predicate Valid(form: Form) {
    forall f :: Get(form, f).errors == {}
  }

  /** Every control's errors are what its validators report for its value at clock `now`. */
  predicate SyncedAt(form: Form, now: Clock) {
    forall f :: Get(form, f).errors == FieldErrors(f, Get(form, f).value, now)
  }

  /**
   Errors `e` could be the expiry validators' verdict on `v` at some clock:
   `required` and `invalidExpiry` are fixed by the value, and `expiredCard`
   can only be reported for a well-formed value.
   */
  predicate ExpiryErrorsPlausible(v: string, e: set<ErrorKey>) {
    && e - {ExpiredCard} == RequiredErrors(v) + (if ExpiryWellFormed(v) then {} else {InvalidExpiry})
    && (ExpiredCard in e ==> ExpiryWellFormed(v))
  }

  /**
   Every control's errors are what its validators reported for its current
   value at some clock: exact for the three clock-free fields, plausible for
   the expiry.
   */
  predicate Synced(form: Form) {
    && form.cardHolder.errors == CardHolderErrors(form.cardHolder.value)
    && form.cardNumber.errors == CardNumberErrors(form.cardNumber.value)
    && form.cvv.errors == CvvErrors(form.cvv.value)
    && ExpiryErrorsPlausible(form.expiryDate.value, form.expiryDate.errors)
  }

  // ---------------------------------------------------------------------------
  // Properties

  /** The expiry errors at any clock are plausible, and plausible errors are the verdict at some clock. */
  lemma ExpiryPlausibleIffSomeClock(v: string, e: set<ErrorKey>)
    ensures forall now :: ExpiryErrorsPlausible(v, ExpiryErrors(v, now))
    ensures ExpiryErrorsPlausible(v, e) ==> ExpiryErrors(v, WitnessClock(v, e)) == e
  {
    forall now ensures ExpiryErrorsPlausible(v, ExpiryErrors(v, now)) {
      ExpiryRejectionOrder(v, now);
      if |v| == 0 {
        assert !ExpiryShaped(v);
      }
    }
    if ExpiryErrorsPlausible(v, e) {
      ExpiryRejectionOrder(v, WitnessClock(v, e));
      if |v| == 0 {
        assert !ExpiryShaped(v);
      }
    }
  }

  /** A clock at which the expiry validators report `e` for `v`, if any does. */
  function WitnessClock(v: string, e: set<ErrorKey>): Clock {
    if ExpiredCard in e && ExpiryShaped(v) then Clock(ExpiryYear(v) + 1, 1) else Clock(0, 1)
  }

  lemma SyncedAtIsSynced(form: Form, now: Clock)
    requires SyncedAt(form, now)
    ensures Synced(form)
  {
    assert Get(form, ExpiryDate).errors == ExpiryErrors(form.expiryDate.value, now);
    ExpiryPlausibleIffSomeClock(form.expiryDate.value, form.expiryDate.errors);
    assert Get(form, CardHolder).errors == CardHolderErrors(form.cardHolder.value);
    assert Get(form, CardNumber).errors == CardNumberErrors(form.cardNumber.value);
    assert Get(form, Cvv).errors == CvvErrors(form.cvv.value);
  }

  /** Writing a value at any clock keeps the group synced; writing at `now` keeps it synced at `now`. */
  lemma SetValueKeepsSynced(form: Form, f: Field, v: string, now: Clock)
    ensures Synced(form) ==> Synced(SetValue(form, f, v, now))
    ensures SyncedAt(form, now) ==> SyncedAt(SetValue(form, f, v, now), now)
  {
    var r := SetValue(form, f, v, now);
    ExpiryPlausibleIffSomeClock(v, r.expiryDate.errors);
    if SyncedAt(form, now) {
      forall g ensures Get(r, g).errors == FieldErrors(g, Get(r, g).value, now) {
        if g != f {
          assert Get(form, g).errors == FieldErrors(g, Get(form, g).value, now);
        }
      }
    }
    if Synced(form) {
      assert Get(r, CardHolder).errors == CardHolderErrors(r.cardHolder.value) by {
        if f != CardHolder { assert Get(r, CardHolder) == Get(form, CardHolder); }
      }
      assert Get(r, CardNumber).errors == CardNumberErrors(r.cardNumber.value) by {
        if f != CardNumber { assert Get(r, CardNumber) == Get(form, CardNumber); }
      }
      assert Get(r, Cvv).errors == CvvErrors(r.cvv.value) by {
        if f != Cvv { assert Get(r, Cvv) == Get(form, Cvv); }
      }
      if f != ExpiryDate {
        assert Get(r, ExpiryDate) == Get(form, ExpiryDate);
      }
    }
  }

  /** Synced at `now`, field by field. */
  lemma SyncedAtFields(form: Form, now: Clock)
    requires SyncedAt(form, now)
    ensures form.cardHolder.errors == CardHolderErrors(form.cardHolder.value)
    ensures form.cardNumber.errors == CardNumberErrors(form.cardNumber.value)
    ensures form.expiryDate.errors == ExpiryErrors(form.expiryDate.value, now)
    ensures form.cvv.errors == CvvErrors(form.cvv.value)
  {
    assert Get(form, CardHolder).errors == FieldErrors(CardHolder, form.cardHolder.value, now);
    assert Get(form, CardNumber).errors == FieldErrors(CardNumber, form.cardNumber.value, now);
    assert Get(form, ExpiryDate).errors == FieldErrors(ExpiryDate, form.expiryDate.value, now);
    assert Get(form, Cvv).errors == FieldErrors(Cvv, form.cvv.value, now);
  }

  /** The group is valid exactly when each of its four controls reports no error. */
  lemma ValidIffNoControlErrors(form: Form)
    ensures Valid(form) <==>
      form.cardHolder.errors == {} && form.cardNumber.errors == {} && form.expiryDate.errors == {} && form.cvv.errors == {}
  {
    if Valid(form) {
      assert Get(form, CardHolder).errors == {} && Get(form, CardNumber).errors == {};
      assert Get(form, ExpiryDate).errors == {} && Get(form, Cvv).errors == {};
    }
  }

  /** Marking controls touched changes neither syncing nor validity. */
  lemma MarkAllTouchedKeepsVerdict(form: Form, now: Clock)
    ensures Valid(MarkAllTouched(form)) <==> Valid(form)
    ensures Synced(form) ==> Synced(MarkAllTouched(form))
    ensures SyncedAt(form, now) ==> SyncedAt(MarkAllTouched(form), now)
  {
    var r := MarkAllTouched(form);
    if Valid(r) {
      forall f ensures Get(form, f).errors == {} {
        assert Get(r, f).errors == {};
      }
    }
    if SyncedAt(form, now) {
      forall f ensures Get(r, f).errors == FieldErrors(f, Get(r, f).value, now) {
        assert Get(form, f).errors == FieldErrors(f, Get(form, f).value, now);
      }
    }
  }

  /** The empty group is invalid: every control reports `required`. */
  lemma EmptyFormInvalid(now: Clock)
    ensures forall f :: Required in Get(EmptyForm(now), f).errors
    ensures !Valid(EmptyForm(now))
  {
    var r := EmptyForm(now);
    assert Required in Get(r, CardHolder).errors;
  }

  /**
   The group is valid exactly when all four field rules hold of the values,
   each stated by its own characterisation: a card holder of at least two UTF-16
   code units, digits and whitespace holding 13 to 19 digits, an expiry whose
   month is not before the clock's, and a CVV of three or four digits.
   */
  lemma ValidIffFieldRules(form: Form, now: Clock)
    requires SyncedAt(form, now) && ValidClock(now)
    ensures Valid(form) <==>
      && Utf16Length(form.cardHolder.value) >= CardHolderMinLength
      && DigitsAndWhitespace(form.cardNumber.value)
      && MinCardDigits <= |DigitsOnly(form.cardNumber.value)| <= MaxCardNumberDigits
      && ExpiryWellFormed(form.expiryDate.value)
      && 12 * ExpiryYear(form.expiryDate.value) + ExpiryMonth(form.expiryDate.value) >= 12 * now.year + now.month
      && AllDigits(form.cvv.value) && 3 <= |form.cvv.value| <= 4
  {
    var e := form.expiryDate.value;
    assert Get(form, CardHolder).errors == CardHolderErrors(form.cardHolder.value);
    assert Get(form, CardNumber).errors == CardNumberErrors(form.cardNumber.value);
    assert Get(form, ExpiryDate).errors == ExpiryErrors(e, now);
    assert Get(form, Cvv).errors == CvvErrors(form.cvv.value);
    CardNumberAccepts(form.cardNumber.value);
    ExpiryAcceptsByMonthCount(e, now);
    assert ExpiryErrors(e, now) == {} <==> ExpiryCheck(e, now) == {} by {
      if ExpiryCheck(e, now) == {} {
        assert ExpiryShaped(e);
      }
    }
  }

  /**
   Whatever clock the controls were last validated at, a valid synced group
   holds a card holder of at least two UTF-16 code units, a card number of 13 to 19
   digits once whitespace is stripped, a well-formed `MM/YY` expiry and a CVV
   of three or four digits.
   */
  lemma ValidSyncedWellFormed(form: Form)
    requires Synced(form) && Valid(form)
    ensures Utf16Length(form.cardHolder.value) >= CardHolderMinLength
    ensures AllDigits(StripWhitespace(form.cardNumber.value))
    ensures MinCardDigits <= |StripWhitespace(form.cardNumber.value)| <= MaxCardNumberDigits
    ensures ExpiryWellFormed(form.expiryDate.value)
    ensures AllDigits(form.cvv.value) && 3 <= |form.cvv.value| <= 4
  {
    assert Get(form, CardHolder).errors == {};
    assert Get(form, CardNumber).errors == {};
    assert Get(form, ExpiryDate).errors == {};
    assert Get(form, Cvv).errors == {};
  }
}

=== FILE: formatters.dfy ===
/**
 The input formatters of the payment form: the text each of them writes back
 into its input field, as a pure function of the raw text the user typed.
 */
module Formatters {
  import opened Text
  import Validators

  /** The expiry formatter keeps `MM` and `YY`: four digits at most. */
  const MaxExpiryDigits: nat := 4

  /** `d.match(/.{1,4}/g)?.join(' ') || d`: runs of four characters joined by single spaces. */
  function Group(d: string): (r: string)
    ensures |r| >= |d|
    decreases |d|
  {
    if |d| <= 4 then d else d[..4] + " " + Group(d[4..])
  }

  /** Groups of four digits separated by single spaces; the last group holds one to four digits. */
  predicate GroupedDigits(r: string) {
    && (forall i :: 0 <= i < |r| ==> if i % 5 == 4 then r[i] == ' ' else IsDigit(r[i]))
    && (|r| == 0 || |r| % 5 != 0)
  }

  /**
   `formatCardNumber`: whitespace removed, then every non-digit, the first 19
   digits kept and grouped by four (for no digits, `|| value` yields the empty
   string, as `Group` does).
   */
  function FormatCardNumber(raw: string): string {
    Group(Prefix(DigitsOnly(StripWhitespace(raw)), Validators.MaxCardNumberDigits))
  }

  /** `formatExpiry`: the digits, with `/` after the first two once there are two, and at most two after it. */
  function FormatExpiry(raw: string): string {
    var d := DigitsOnly(raw);
    if |d| >= 2 then d[..2] + "/" + d[2..Min(|d|, MaxExpiryDigits)] else d
  }

  /** `formatCVV`: the digits of the input. */
  function FormatCvv(raw: string): string {
    DigitsOnly(raw)
  }

  /** What the expiry formatter can produce: up to one digit, or `DD/` followed by up to two digits. */
  predicate ExpiryDraft(r: string) {
    || (|r| <= 1 && AllDigits(r))
    || (3 <= |r| <= 5 && AllDigits(r[..2]) && r[2] == '/' && AllDigits(r[3..]))
  }

  // ---------------------------------------------------------------------------
  // Card number

  lemma {:induction false} GroupShape(d: string)
    requires AllDigits(d)
    ensures GroupedDigits(Group(d))
    decreases |d|
  {
    if |d| > 4 {
      var t := Group(d[4..]);
      GroupShape(d[4..]);
      var r := Group(d);
      assert r == d[..4] + " " + t;
      forall i | 0 <= i < |r|
        ensures if i % 5 == 4 then r[i] == ' ' else IsDigit(r[i])
      {
        if i >= 5 {
          assert r[i] == t[i - 5];
          assert (i - 5) % 5 == i % 5;
        }
      }
    }
  }

  /** Grouping only inserts spaces: removing the non-digits gives the digits back. */
  lemma {:induction false} GroupDigits(d: string)
    requires AllDigits(d)
    ensures DigitsOnly(Group(d)) == d
    decreases |d|
  {
    if |d| <= 4 {
      DigitsOnlyOfDigits(d);
    } else {
      var h, t := d[..4], Group(d[4..]);
      assert AllDigits(d[4..]) && AllDigits(h);
      GroupDigits(d[4..]);
      assert Group(d) == h + (" " + t);
      DigitsOnlyAppend(h, " " + t);
      assert (" " + t)[0] == ' ' && (" " + t)[1..] == t;
      assert DigitsOnly(" " + t) == DigitsOnly(t);
      DigitsOnlyOfDigits(h);
      assert DigitsOnly(Group(d)) == h + d[4..];
      assert h + d[4..] == d;
    }
  }

  /** Grouping only inserts spaces: removing the whitespace gives the digits back. */
  lemma {:induction false} GroupStripped(d: string)
    requires AllDigits(d)
    ensures StripWhitespace(Group(d)) == d
    decreases |d|
  {
    if |d| <= 4 {
      StripWhitespaceOfDigits(d);
    } else {
      var h, t := d[..4], Group(d[4..]);
      assert AllDigits(d[4..]) && AllDigits(h);
      GroupStripped(d[4..]);
      assert Group(d) == h + (" " + t);
      StripWhitespaceAppend(h, " " + t);
      assert (" " + t)[0] == ' ' && (" " + t)[1..] == t;
      assert StripWhitespace(" " + t) == StripWhitespace(t);
      StripWhitespaceOfDigits(h);
      assert StripWhitespace(Group(d)) == h + d[4..];
      assert h + d[4..] == d;
    }
  }

  /** A well-grouped string longer than one group is a group, a space and a well-grouped rest. */
  lemma GroupedSplit(r: string)
    requires GroupedDigits(r) && |r| > 4
    ensures |r| >= 6 && r[4] == ' ' && IsDigit(r[5])
    ensures AllDigits(r[..4]) && GroupedDigits(r[5..])
  {
    assert 4 % 5 == 4 && 5 % 5 == 0;
    var head, tail := r[..4], r[5..];
    forall i | 0 <= i < |tail|
      ensures if i % 5 == 4 then tail[i] == ' ' else IsDigit(tail[i])
    {
      assert tail[i] == r[i + 5];
      assert (i + 5) % 5 == i % 5;
    }
    assert |tail| % 5 == |r| % 5;
    forall i | 0 <= i < 4 ensures IsDigit(head[i]) {
      assert head[i] == r[i];
      assert i % 5 == i;
    }
  }

  /** Grouping a well-grouped string's digits rebuilds the string. */
  lemma {:induction false} GroupOfGrouped(r: string)
    requires GroupedDigits(r)
    ensures Group(DigitsOnly(r)) == r
    decreases |r|
  {
    if |r| <= 4 {
      assert AllDigits(r) by {
        forall i | 0 <= i < |r| ensures IsDigit(r[i]) {
          assert i % 5 == i;
        }
      }
      DigitsOnlyOfDigits(r);
    } else {
      GroupedSplit(r);
      var head, tail := r[..4], r[5..];
      GroupOfGrouped(tail);
      assert r == head + (" " + tail);
      DigitsOnlyAppend(head, " " + tail);
      assert (" " + tail)[0] == ' ' && (" " + tail)[1..] == tail;
      assert DigitsOnly(" " + tail) == DigitsOnly(tail);
      DigitsOnlyOfDigits(head);
      var dt := DigitsOnly(tail);
      assert DigitsOnly(r) == head + dt;
      assert |dt| > 0 by {
        assert Group(dt) == tail;
      }
      var dr := head + dt;
      assert dr[..4] == head && dr[4..] == dt;
      assert Group(dr) == head + " " + Group(dt);
    }
  }

  /**
   The card-number formatter writes groups of four digits separated by single
   spaces (the last group one to four digits), and its digits are the first 19
   digits of the input, in order.
   */
  lemma CardNumberFormatShape(raw: string)
    ensures GroupedDigits(FormatCardNumber(raw))
    ensures DigitsOnly(FormatCardNumber(raw)) == Prefix(DigitsOnly(raw), Validators.MaxCardNumberDigits)
    ensures StripWhitespace(FormatCardNumber(raw)) == Prefix(DigitsOnly(raw), Validators.MaxCardNumberDigits)
    ensures |DigitsOnly(FormatCardNumber(raw))| <= Validators.MaxCardNumberDigits
  {
    DigitsOnlyAfterStrip(raw);
    var d := Prefix(DigitsOnly(raw), Validators.MaxCardNumberDigits);
    assert AllDigits(d) by {
      forall i | 0 <= i < |d| ensures IsDigit(d[i]) {
        assert d[i] == DigitsOnly(raw)[i];
      }
    }
    GroupShape(d);
    GroupDigits(d);
    GroupStripped(d);
  }

  /** Formatting an already formatted card number changes nothing. */
  lemma CardNumberFormatIdempotent(raw: string)
    ensures FormatCardNumber(FormatCardNumber(raw)) == FormatCardNumber(raw)
  {
    CardNumberFormatShape(raw);
    DigitsOnlyAfterStrip(raw);
    var r := FormatCardNumber(raw);
    DigitsOnlyAfterStrip(r);
    var p := Prefix(DigitsOnly(raw), Validators.MaxCardNumberDigits);
    assert DigitsOnly(StripWhitespace(r)) == p;
    assert Prefix(p, Validators.MaxCardNumberDigits) == p;
  }

  /** The card-number formatter leaves a string alone exactly when it is grouped and has at most 19 digits. */
  lemma CardNumberFormatFixedPoints(r: string)
    ensures FormatCardNumber(r) == r <==> GroupedDigits(r) && |DigitsOnly(r)| <= Validators.MaxCardNumberDigits
  {
    CardNumberFormatShape(r);
    DigitsOnlyAfterStrip(r);
    if GroupedDigits(r) && |DigitsOnly(r)| <= Validators.MaxCardNumberDigits {
      GroupOfGrouped(r);
    }
  }

  // ---------------------------------------------------------------------------
  // Expiry

  /** Splitting four digits or fewer (at least two) as `MM` and `YY` around a `/` loses no digit. */
  lemma ExpiryPieces(d: string)
    requires AllDigits(d) && |d| >= 2
    ensures AllDigits(d[..2]) && AllDigits(d[2..Min(|d|, MaxExpiryDigits)])
    ensures DigitsOnly(d[..2] + ("/" + d[2..Min(|d|, MaxExpiryDigits)])) == Prefix(d, MaxExpiryDigits)
  {
    var a, b := d[..2], d[2..Min(|d|, MaxExpiryDigits)];
    forall i | 0 <= i < |a| ensures IsDigit(a[i]) { assert a[i] == d[i]; }
    forall i | 0 <= i < |b| ensures IsDigit(b[i]) { assert b[i] == d[i + 2]; }
    SlashedDigits(a, b);
    assert a + b == Prefix(d, MaxExpiryDigits);
  }

  /**
   The expiry formatter returns the input's digits when there are fewer than
   two; otherwise the first two digits, `/`, and at most two more digits.
   Either way its digits are the input's first four, in order.
   */
  lemma ExpiryFormatShape(raw: string)
    ensures ExpiryDraft(FormatExpiry(raw))
    ensures |FormatExpiry(raw)| <= 5
    ensures DigitsOnly(FormatExpiry(raw)) == Prefix(DigitsOnly(raw), MaxExpiryDigits)
    ensures |DigitsOnly(raw)| < 2 ==> FormatExpiry(raw) == DigitsOnly(raw)
    ensures |DigitsOnly(raw)| >= 2 ==> FormatExpiry(raw)[..2] == DigitsOnly(raw)[..2] && FormatExpiry(raw)[2] == '/'
  {
    var d := DigitsOnly(raw);
    if |d| >= 2 {
      ExpiryPieces(d);
      var a, b := d[..2], d[2..Min(|d|, MaxExpiryDigits)];
      var r := a + ("/" + b);
      assert r == FormatExpiry(raw);
      assert r[..2] == a && r[3..] == b;
    } else {
      DigitsOnlyOfDigits(d);
    }
  }

  /** Formatting an already formatted expiry changes nothing. */
  lemma ExpiryFormatIdempotent(raw: string)
    ensures FormatExpiry(FormatExpiry(raw)) == FormatExpiry(raw)
  {
    ExpiryFormatShape(raw);
    var d := DigitsOnly(raw);
    var r := FormatExpiry(raw);
    ExpiryFormatShape(r);
    if |d| >= 2 {
      assert DigitsOnly(r) == Prefix(d, MaxExpiryDigits);
      assert r == d[..2] + "/" + d[2..Min(|d|, MaxExpiryDigits)];
      var e := DigitsOnly(r);
      assert e[..2] == d[..2];
      assert e[2..Min(|e|, MaxExpiryDigits)] == d[2..Min(|d|, MaxExpiryDigits)];
    }
  }

  /** The expiry formatter leaves a string alone exactly when it is something the formatter could have produced. */
  lemma ExpiryFormatFixedPoints(r: string)
    ensures FormatExpiry(r) == r <==> ExpiryDraft(r)
  {
    if !ExpiryDraft(r) {
      ExpiryFormatShape(r);
    } else if |r| <= 1 {
      DigitsOnlyOfDigits(r);
    } else {
      ExpiryDraftDigits(r);
    }
  }

  /** The digits of `a/b` are those of `a` followed by those of `b`. */
  lemma SlashedDigits(a: string, b: string)
    requires AllDigits(a) && AllDigits(b)
    ensures DigitsOnly(a + ("/" + b)) == a + b
  {
    var sb := "/" + b;
    assert sb[0] == '/' && sb[1..] == b;
    assert DigitsOnly(sb) == DigitsOnly(b);
    DigitsOnlyAppend(a, sb);
    DigitsOnlyOfDigits(a);
    DigitsOnlyOfDigits(b);
  }

  /** A draft of the form `DD/` plus up to two digits has the digits that the formatter rebuilds it from. */
  lemma ExpiryDraftDigits(r: string)
    requires ExpiryDraft(r) && |r| >= 3
    ensures FormatExpiry(r) == r
  {
    var a, b := r[..2], r[3..];
    assert r == a + ("/" + b);
    SlashedDigits(a, b);
    var d := a + b;
    assert |d| <= MaxExpiryDigits;
    assert d[..2] == a && d[2..|d|] == b;
  }

  /** The expiry formatter never leaves exactly two characters: two digits always get their `/`. */
  lemma ExpiryFormatNeverTwoLong(raw: string)
    ensures |FormatExpiry(raw)| != 2
  {
    ExpiryFormatShape(raw);
  }

  // ---------------------------------------------------------------------------
  // CVV

  /** The CVV formatter keeps exactly the input's digits and leaves a string alone exactly when it is all digits. */
  lemma CvvFormatDigits(raw: string)
    ensures AllDigits(FormatCvv(raw))
    ensures forall c :: IsDigit(c) ==> multiset(FormatCvv(raw))[c] == multiset(raw)[c]
    ensures FormatCvv(raw) == raw <==> AllDigits(raw)
    ensures FormatCvv(FormatCvv(raw)) == FormatCvv(raw)
  {
    DigitsOnlyKeepsDigits(raw);
    if AllDigits(raw) {
      DigitsOnlyOfDigits(raw);
    }
    DigitsOnlyOfDigits(FormatCvv(raw));
  }
}

=== FILE: payment_form.dfy ===
/**
 The payment-form component: its inputs, its signals, its form group and the
 events it has emitted, with every handler as a transition from one component
 state to the next. The simulated gateway call is an `Outcome` parameter and
 the wall clock a `Clock` parameter; emitted events are appended to `events`.
 */
module PaymentForm {
  import opened Text
  import opened Formatters
  import opened Validators
  import opened FormState

  /** The configured gateways, `stripe` and `paypal`. */
  datatype Gateway = Stripe | PayPal

  /** The `messageType` signal: `''`, `'success'` or `'error'`. */
  datatype MessageType = NoMessage | SuccessMessage | ErrorMessage

  datatype ErrorCode = PaymentDeclined | ProcessingError

  /** What the component emits on `gatewayChange`, `paymentSuccess` and `paymentError`. */
  datatype Event =
    | GatewayChange(gateway: Gateway)
    | PaymentSuccess(transactionId: string, gateway: Gateway, amount: string, currency: string, cardHolder: string)
    | PaymentError(error: string, code: ErrorCode)

  /** The snapshot `handleSubmit` hands to `processPayment`. */
  datatype PaymentData = PaymentData(
    cardHolder: string, cardNumber: string, expiryDate: string, cvv: string,
    amount: string, currency: string, gateway: Gateway)

  /**
   How the simulated gateway call ends: approved (`Math.random() > 0.3`, with
   `token` the random characters of the transaction id), declined, or an
   exception inside the `try` before any of its effects.
   */
  datatype Outcome = Approved(token: string) | Declined | Threw

  datatype Component = Component(
    amount: string,             // @Input()
    currency: string,           // @Input()
    gateway: Gateway,           // @Input(): the initial selection
    selectedGateway: Gateway,
    isProcessing: bool,
    statusMessage: string,
    messageType: MessageType,
    form: Form,
    events: seq<Event>)

  const DefaultCurrency := "USD"
  const DefaultAmount := "0"
  const TransactionPrefix := "txn_"
  const SuccessText := "Payment successful! Transaction ID: "
  const DeclinedText := "Payment failed. Please check your card details and try again."
  const ProcessingErrorText := "An error occurred while processing your payment. Please try again."

  /** The status message and its kind are set and cleared together. */
  predicate MessageConsistent(c: Component) {
    c.messageType == NoMessage <==> c.statusMessage == ""
  }

  /** What every reachable component state satisfies. */
  predicate Consistent(c: Component) {
    Synced(c.form) && MessageConsistent(c)
  }

  /** The host's inputs `amount`, `currency` and `gateway` are as they were. */
  predicate InputsKept(c: Component, r: Component) {
    r.amount == c.amount && r.currency == c.currency && r.gateway == c.gateway
  }

  /** Nothing but the form group differs between `c` and `r`, and no event was emitted. */
  predicate OnlyFormChanged(c: Component, r: Component) {
    r == c.(form := r.form)
  }

  // ---------------------------------------------------------------------------
  // Construction and inputs

  /**
   The component as constructed: default inputs, `selectedGateway` seeded
   from the default gateway input, nothing processing, no message, the form
   group built empty and validated at `now`.
   */
  function Create(now: Clock): (c: Component)
    ensures c.amount == "" && c.currency == DefaultCurrency
    ensures c.gateway == Stripe && c.selectedGateway == Stripe
    ensures !c.isProcessing && c.events == []
    ensures c.statusMessage == "" && c.messageType == NoMessage
    ensures c.form == EmptyForm(now)
    ensures SyncedAt(c.form, now) && !Valid(c.form)
    ensures Consistent(c)
  {
    EmptyFormInvalid(now);
    SyncedAtIsSynced(EmptyForm(now), now);
    Component("", DefaultCurrency, Stripe, Stripe, false, "", NoMessage, EmptyForm(now), [])
  }

  /** The host binds the three inputs; `selectedGateway` does not follow the gateway input. */
  function BindInputs(c: Component, amount: string, currency: string, gateway: Gateway): (r: Component)
    ensures r.amount == amount && r.currency == currency && r.gateway == gateway
    ensures r.selectedGateway == c.selectedGateway && r.form == c.form && r.events == c.events
    ensures r.isProcessing == c.isProcessing && r.statusMessage == c.statusMessage && r.messageType == c.messageType
    ensures Consistent(c) ==> Consistent(r)
  {
    c.(amount := amount, currency := currency, gateway := gateway)
  }

  /** `ngOnInit`: the selection takes the bound gateway input. */
  function OnInit(c: Component): (r: Component)
    ensures r.selectedGateway == c.gateway
    ensures r.form == c.form && r.events == c.events && r.isProcessing == c.isProcessing
    ensures InputsKept(c, r) && r.statusMessage == c.statusMessage && r.messageType == c.messageType
    ensures Consistent(c) ==> Consistent(r)
  {
    c.(selectedGateway := c.gateway)
  }

  // ---------------------------------------------------------------------------
  // Field input

  /** The user edits a field: the control receives the typed value and revalidates at `now`. */
  function EditField(c: Component, f: Field, v: string, now: Clock): (r: Component)
    ensures OnlyFormChanged(c, r)
    ensures Get(r.form, f).value == v && Get(r.form, f).errors == FieldErrors(f, v, now)
    ensures Get(r.form, f).touched == Get(c.form, f).touched
    ensures forall g :: g != f ==> Get(r.form, g) == Get(c.form, g)
    ensures SyncedAt(c.form, now) ==> SyncedAt(r.form, now)
    ensures Consistent(c) ==> Consistent(r)
  {
    SetValueKeepsSynced(c.form, f, v, now);
    c.(form := SetValue(c.form, f, v, now))
  }

  /**
   `formatCardNumber`: the card-number control receives the grouped digits of
   the raw input (the write-back into the DOM input is not modelled).
   */
  function FormatCardNumberInput(c: Component, raw: string, now: Clock): (r: Component)
    ensures OnlyFormChanged(c, r)
    ensures GroupedDigits(r.form.cardNumber.value)
    ensures StripWhitespace(r.form.cardNumber.value) == Prefix(DigitsOnly(raw), MaxCardNumberDigits)
    ensures r.form.cardNumber.errors == CardNumberErrors(r.form.cardNumber.value)
    ensures r.form.cardNumber.touched == c.form.cardNumber.touched
    ensures forall g :: g != CardNumber ==> Get(r.form, g) == Get(c.form, g)
    ensures SyncedAt(c.form, now) ==> SyncedAt(r.form, now)
    ensures Consistent(c) ==> Consistent(r)
  {
    CardNumberFormatShape(raw);
    EditField(c, CardNumber, FormatCardNumber(raw), now)
  }

  /** `formatExpiry`: the expiry control receives the `MM/YY` draft of the raw input. */
  function FormatExpiryInput(c: Component, raw: string, now: Clock): (r: Component)
    ensures OnlyFormChanged(c, r)
    ensures ExpiryDraft(r.form.expiryDate.value)
    ensures DigitsOnly(r.form.expiryDate.value) == Prefix(DigitsOnly(raw), MaxExpiryDigits)
    ensures r.form.expiryDate.errors == ExpiryErrors(r.form.expiryDate.value, now)
    ensures r.form.expiryDate.touched == c.form.expiryDate.touched
    ensures forall g :: g != ExpiryDate ==> Get(r.form, g) == Get(c.form, g)
    ensures SyncedAt(c.form, now) ==> SyncedAt(r.form, now)
    ensures Consistent(c) ==> Consistent(r)
  {
    ExpiryFormatShape(raw);
    EditField(c, ExpiryDate, FormatExpiry(raw), now)
  }

  // ---------------------------------------------------------------------------
  // Gateway selection

  /** `selectGateway`: always succeeds, whatever the form or the processing state, and emits `gatewayChange`. */
  function SelectGateway(c: Component, g: Gateway): (r: Component)
    ensures r.selectedGateway == g
    ensures r.events == c.events + [GatewayChange(g)]
    ensures r.form == c.form && r.isProcessing == c.isProcessing
    ensures r.statusMessage == c.statusMessage && r.messageType == c.messageType
    ensures InputsKept(c, r)
    ensures Consistent(c) ==> Consistent(r)
  {
    c.(selectedGateway := g, events := c.events + [GatewayChange(g)])
  }

  // ---------------------------------------------------------------------------
  // Submission

  /** `this.amount || '0'`: the empty amount becomes `"0"`. */
  function AmountOrDefault(amount: string): (a: string)
    ensures |a| > 0
    ensures |amount| > 0 ==> a == amount
    ensures |amount| == 0 ==> a == DefaultAmount
  {
    if |amount| == 0 then DefaultAmount else amount
  }

  /** The payment data `handleSubmit` builds from the form values, the inputs and the selected gateway. */
  function BuildPaymentData(c: Component): (d: PaymentData)
    ensures NoWhitespace(d.cardNumber)
    ensures forall ch :: !IsWhitespace(ch) ==> multiset(d.cardNumber)[ch] == multiset(c.form.cardNumber.value)[ch]
    ensures d.cardHolder == c.form.cardHolder.value && d.expiryDate == c.form.expiryDate.value && d.cvv == c.form.cvv.value
    ensures d.amount == AmountOrDefault(c.amount) && d.currency == c.currency
    ensures d.gateway == c.selectedGateway
  {
    StripWhitespaceKeepsOthers(c.form.cardNumber.value);
    PaymentData(
      c.form.cardHolder.value,
      StripWhitespace(c.form.cardNumber.value),
      c.form.expiryDate.value,
      c.form.cvv.value,
      AmountOrDefault(c.amount),
      c.currency,
      c.selectedGateway)
  }

  /** The start of `processPayment`: `isProcessing` is raised and the status message cleared. */
  function StartProcessing(c: Component): (r: Component)
    ensures r.isProcessing
    ensures r.statusMessage == "" && r.messageType == NoMessage
    ensures r.form == c.form && r.events == c.events && r.selectedGateway == c.selectedGateway
    ensures InputsKept(c, r)
    ensures Consistent(c) ==> Consistent(r)
  {
    c.(isProcessing := true, statusMessage := "", messageType := NoMessage)
  }

  /** The event a settlement emits. */
  function OutcomeEvent(data: PaymentData, o: Outcome): Event {
    match o
    case Approved(token) =>
      PaymentSuccess(TransactionPrefix + token, data.gateway, data.amount, data.currency, data.cardHolder)
    case Declined => PaymentError("Payment declined", PaymentDeclined)
    case Threw => PaymentError("Processing error", ProcessingError)
  }

  /**
   The rest of `processPayment`, after the delay: one outcome, one event,
   the form reset only on success, and `isProcessing` lowered on every path.
   */
  function Settle(c: Component, data: PaymentData, o: Outcome, now: Clock): (r: Component)
    ensures !r.isProcessing
    ensures r.events == c.events + [OutcomeEvent(data, o)]
    ensures r.selectedGateway == c.selectedGateway && InputsKept(c, r)
    ensures o.Approved? ==> r.form == EmptyForm(now) && r.messageType == SuccessMessage
    ensures o.Approved? ==> r.statusMessage == SuccessText + TransactionPrefix + o.token
    ensures !o.Approved? ==> r.form == c.form && r.messageType == ErrorMessage
    ensures o.Declined? ==> r.statusMessage == DeclinedText
    ensures o.Threw? ==> r.statusMessage == ProcessingErrorText
    ensures Consistent(c) ==> Consistent(r)
  {
    match o
    case Approved(token) =>
      SyncedAtIsSynced(EmptyForm(now), now);
      c.(isProcessing := false,
         statusMessage := SuccessText + TransactionPrefix + token,
         messageType := SuccessMessage,
         form := EmptyForm(now),
         events := c.events + [OutcomeEvent(data, o)])
    case Declined =>
      c.(isProcessing := false,
         statusMessage := DeclinedText,
         messageType := ErrorMessage,
         events := c.events + [OutcomeEvent(data, o)])
    case Threw =>
      c.(isProcessing := false,
         statusMessage := ProcessingErrorText,
         messageType := ErrorMessage,
         events := c.events + [OutcomeEvent(data, o)])
  }

  /** `processPayment`, its settlement taken as one step after its start. */
  function ProcessPayment(c: Component, data: PaymentData, o: Outcome, now: Clock): Component {
    Settle(StartProcessing(c), data, o, now)
  }

  /**
   `handleSubmit`: an invalid form only has all its controls marked touched;
   a valid one is submitted with the payment data built from it. There is no
   check of `isProcessing`.
   */
  function HandleSubmit(c: Component, o: Outcome, now: Clock): Component {
    if !Valid(c.form) then c.(form := MarkAllTouched(c.form))
    else ProcessPayment(c, BuildPaymentData(c), o, now)
  }

  // ---------------------------------------------------------------------------
  // Properties of the submission flow

  /**
   Submitting an invalid form marks all four controls touched and changes
   nothing else: the values and errors stay, no processing starts, no event
   is emitted, the status message stays.
   */
  lemma SubmitInvalidForm(c: Component, o: Outcome, now: Clock)
    requires !Valid(c.form)
    ensures var r := HandleSubmit(c, o, now);
      && OnlyFormChanged(c, r)
      && (forall f :: Get(r.form, f).touched)
      && (forall f :: Get(r.form, f).value == Get(c.form, f).value && Get(r.form, f).errors == Get(c.form, f).errors)
      && !Valid(r.form)
  {
    MarkAllTouchedKeepsVerdict(c.form, now);
  }

  /**
   Submitting a valid form settles exactly once: one event is appended, a
   `paymentSuccess` exactly when the outcome is approved, and `isProcessing`
   is down again afterwards.
   */
  lemma SubmitValidFormSettlesOnce(c: Component, o: Outcome, now: Clock)
    requires Valid(c.form)
    ensures var r := HandleSubmit(c, o, now);
      && !r.isProcessing
      && |r.events| == |c.events| + 1
      && r.events[..|c.events|] == c.events
      && (r.events[|c.events|].PaymentSuccess? <==> o.Approved?)
      && (r.events[|c.events|].PaymentError? <==> !o.Approved?)
  {
    var r := HandleSubmit(c, o, now);
    assert r.events == c.events + [OutcomeEvent(BuildPaymentData(c), o)];
  }

  /**
   An approved valid submission resets the form to empty, untouched controls,
   reports success, and emits `paymentSuccess` with a `txn_` id and the
   gateway, amount (empty becomes `"0"`), currency and card holder submitted.
   */
  lemma SubmitApproved(c: Component, token: string, now: Clock)
    requires Valid(c.form)
    ensures var r := HandleSubmit(c, Approved(token), now);
      && (forall f :: Get(r.form, f).value == "" && !Get(r.form, f).touched)
      && r.messageType == SuccessMessage
      && r.events == c.events + [PaymentSuccess(TransactionPrefix + token, c.selectedGateway,
                                                AmountOrDefault(c.amount), c.currency, c.form.cardHolder.value)]
      && TransactionPrefix <= r.events[|c.events|].transactionId
  {
  }

  /**
   A declined or failed valid submission keeps the form exactly as submitted,
   reports an error, and emits `paymentError` with `PAYMENT_DECLINED` or
   `PROCESSING_ERROR` respectively.
   */
  lemma SubmitFailed(c: Component, o: Outcome, now: Clock)
    requires Valid(c.form) && !o.Approved?
    ensures var r := HandleSubmit(c, o, now);
      && r.form == c.form
      && r.messageType == ErrorMessage
      && r.events[..|c.events|] == c.events
      && r.events[|c.events|].PaymentError?
      && r.events[|c.events|].code == (if o.Declined? then PaymentDeclined else ProcessingError)
  {
  }

  /**
   The payment data of a valid, synced form carries the card number without
   whitespace as 13 to 19 digits, a card holder of two UTF-16 code units or more, a
   well-formed expiry, a three- or four-digit CVV, a non-empty amount and the
   selected gateway.
   */
  lemma SubmittedDataWellFormed(c: Component)
    requires Synced(c.form) && Valid(c.form)
    ensures var d := BuildPaymentData(c);
      && AllDigits(d.cardNumber) && MinCardDigits <= |d.cardNumber| <= MaxCardNumberDigits
      && d.cardNumber == DigitsOnly(c.form.cardNumber.value)
      && Utf16Length(d.cardHolder) >= CardHolderMinLength
      && ExpiryWellFormed(d.expiryDate)
      && AllDigits(d.cvv) && 3 <= |d.cvv| <= 4
      && (d.amount == c.amount || (c.amount == "" && d.amount == DefaultAmount))
      && d.gateway == c.selectedGateway
  {
    ValidSyncedWellFormed(c.form);
    StripWhitespaceAllDigits(c.form.cardNumber.value);
    StripWhitespaceOfDigitsAndSpaces(c.form.cardNumber.value);
  }

  /** Processing is observable between start and settlement, with the status message cleared. */
  lemma ProcessingWindow(c: Component, data: PaymentData, o: Outcome, now: Clock)
    ensures StartProcessing(c).isProcessing && StartProcessing(c).statusMessage == ""
    ensures !ProcessPayment(c, data, o, now).isProcessing
    ensures |ProcessPayment(c, data, o, now).events| == |c.events| + 1
  {
  }

  /** A submission from an idle component leaves it idle, whether or not the form was valid. */
  lemma SubmitEndsIdle(c: Component, o: Outcome, now: Clock)
    requires !c.isProcessing
    ensures !HandleSubmit(c, o, now).isProcessing
  {
  }

  /**
   Switching the gateway while a payment is processing does not change the
   in-flight payment: the success event names the gateway captured at submit
   time, and both events are emitted in order.
   */
  lemma GatewaySwitchDuringProcessing(c: Component, g: Gateway, token: string, now: Clock)
    ensures var data := BuildPaymentData(c);
      var r := Settle(SelectGateway(StartProcessing(c), g), data, Approved(token), now);
      && r.events == c.events + [GatewayChange(g), OutcomeEvent(data, Approved(token))]
      && r.events[|c.events| + 1].gateway == c.selectedGateway
      && r.selectedGateway == g
  {
  }

  /** Every transition keeps a consistent component consistent. */
  lemma TransitionsKeepConsistent(c: Component, o: Outcome, now: Clock)
    requires Consistent(c)
    ensures Consistent(HandleSubmit(c, o, now))
    ensures forall g :: Consistent(SelectGateway(c, g))
    ensures forall f, v :: Consistent(EditField(c, f, v, now))
  {
    if !Valid(c.form) {
      MarkAllTouchedKeepsVerdict(c.form, now);
    }
  }

  // ---------------------------------------------------------------------------
  // Formatters against validators

  /** A formatted card number passes its validator exactly when the raw input held at least 13 digits. */
  lemma FormattedCardNumberAccepted(raw: string)
    ensures CardNumberErrors(FormatCardNumber(raw)) == {} <==> |DigitsOnly(raw)| >= MinCardDigits
  {
    CardNumberFormatShape(raw);
    var s := StripWhitespace(FormatCardNumber(raw));
    assert AllDigits(s);
    if |DigitsOnly(raw)| >= MinCardDigits {
      assert |FormatCardNumber(raw)| >= |s| > 0;
    }
  }

  /** A formatted expiry has the `MM/YY` shape exactly when the raw input held at least four digits. */
  lemma FormattedExpiryShaped(raw: string)
    ensures ExpiryShaped(FormatExpiry(raw)) <==> |DigitsOnly(raw)| >= MaxExpiryDigits
  {
    ExpiryFormatShape(raw);
    var r := FormatExpiry(raw);
    if |DigitsOnly(raw)| >= MaxExpiryDigits {
      assert |r| == 5;
      assert IsDigit(r[..2][0]) && IsDigit(r[..2][1]) && IsDigit(r[3..][0]) && IsDigit(r[3..][1]);
    }
  }

  /**
   The digits of a raw CVV pass the CVV rule exactly when there are three or
   four. `formatCVV` writes them only into the DOM input, not into the
   control, so this does not say the control holds only digits.
   */
  lemma FormattedCvvAccepted(raw: string)
    ensures CvvErrors(FormatCvv(raw)) == {} <==> 3 <= |DigitsOnly(raw)| <= 4
  {
  }

  // ---------------------------------------------------------------------------
  // Scenarios

  /** Submitting the untouched form: it stays idle, every control becomes touched, and nothing is emitted. */
  lemma EmptyFormSubmit(o: Outcome, now: Clock)
    ensures var c := Create(now);
      var r := HandleSubmit(c, o, now);
      && !r.isProcessing && r.events == []
      && (forall f :: Get(r.form, f).touched && Get(r.form, f).value == "")
  {
    SubmitInvalidForm(Create(now), o, now);
  }

  const ScenarioClock := Clock(2025, 6)

  /** The card details of the end-to-end example. */
  predicate JaneDoeDetails(form: Form) {
    && form.cardHolder.value == "Jane Doe"
    && form.cardNumber.value == "4242424242424242"
    && form.expiryDate.value == "12/30"
    && form.cvv.value == "123"
  }

  lemma JaneDoeHolderPasses()
    ensures CardHolderErrors("Jane Doe") == {}
  {
  }

  lemma JaneDoeNumberPasses()
    ensures CardNumberErrors("4242424242424242") == {}
  {
    var d := "4242424242424242";
    assert AllDigits(d);
    CardNumberDigitCount(d);
  }

  lemma JaneDoeExpiryPasses()
    ensures ExpiryErrors("12/30", ScenarioClock) == {}
  {
    assert ExpiryShaped("12/30") && ExpiryMonth("12/30") == 12 && ExpiryYear("12/30") == 2030;
  }

  lemma JaneDoeCvvPasses()
    ensures CvvErrors("123") == {}
  {
  }

  /** Jane Doe's details, validated in June 2025, make a valid form. */
  lemma JaneDoeValid(form: Form)
    requires JaneDoeDetails(form) && SyncedAt(form, ScenarioClock)
    ensures Valid(form)
  {
    SyncedAtFields(form, ScenarioClock);
    JaneDoeHolderPasses();
    JaneDoeNumberPasses();
    JaneDoeExpiryPasses();
    JaneDoeCvvPasses();
    ValidIffNoControlErrors(form);
  }

  /**
   Submitting Jane Doe's valid form emits exactly one event: a `txn_` success
   naming her with the amount defaulted to `"0"` and the form reset, or a
   decline with her fields intact.
   */
  lemma JaneDoeScenario(c: Component, o: Outcome)
    requires JaneDoeDetails(c.form) && SyncedAt(c.form, ScenarioClock) && c.amount == ""
    ensures var r := HandleSubmit(c, o, ScenarioClock);
      && |r.events| == |c.events| + 1
      && var e := r.events[|c.events|];
      && (o.Approved? ==> e.PaymentSuccess? && TransactionPrefix <= e.transactionId
                          && e.cardHolder == "Jane Doe" && e.amount == DefaultAmount
                          && r.form == EmptyForm(ScenarioClock))
      && (o.Declined? ==> e == PaymentError("Payment declined", PaymentDeclined) && r.form == c.form)
  {
    JaneDoeValid(c.form);
    SubmitValidFormSettlesOnce(c, o, ScenarioClock);
    if o.Approved? {
      SubmitApproved(c, o.token, ScenarioClock);
    } else {
      SubmitFailed(c, o, ScenarioClock);
    }
  }
}

=== FILE: text.dfy ===
/**
 Character classes and the global regular-expression replacements that the
 payment form applies to raw input. A JavaScript string is modelled as the
 sequence of its Unicode characters, `seq<char>`; where the source reads
 `length`, which counts UTF-16 code units, the model uses `Utf16Length`.
 */
module Text {

  /** `\d` and `[0-9]` of a JavaScript regular expression (no `u` flag): ASCII digits only. */
  predicate IsDigit(c: char) {
    '0' <= c <= '9'
  }

  /** `\s` of a JavaScript regular expression: the ECMAScript WhiteSpace and LineTerminator characters. */
  predicate IsWhitespace(c: char) {
    || c == '\t' || c == '\n' || c == '\U{000B}' || c == '\U{000C}' || c == '\r' || c == ' '
    || c == '\U{00A0}' || c == '\U{1680}' || ('\U{2000}' <= c <= '\U{200A}')
    || c == '\U{2028}' || c == '\U{2029}' || c == '\U{202F}' || c == '\U{205F}'
    || c == '\U{3000}' || c == '\U{FEFF}'
  }

  predicate AllDigits(s: string) {
    forall i :: 0 <= i < |s| ==> IsDigit(s[i])
  }

  predicate NoWhitespace(s: string) {
    forall i :: 0 <= i < |s| ==> !IsWhitespace(s[i])
  }

  function Min(a: int, b: int): int {
    if a <= b then a else b
  }

  /** `s.length`: one code unit for a character of the Basic Multilingual Plane, two (a surrogate pair) above it. */
  function Utf16Length(s: string): (n: nat)
    ensures |s| <= n <= 2 * |s|
  {
    if |s| == 0 then 0 else (if s[0] as int > 0xFFFF then 2 else 1) + Utf16Length(s[1..])
  }

  /** Only the empty string has no code units. */
  lemma Utf16LengthZero(s: string)
    ensures Utf16Length(s) == 0 <==> |s| == 0
  {
  }

  /** One character is one code unit in the Basic Multilingual Plane and a surrogate pair above it. */
  lemma Utf16LengthOfChar(c: char)
    ensures Utf16Length([c]) == if c as int > 0xFFFF then 2 else 1
  {
    assert [c][1..] == [];
  }

  /** Code units add up over concatenation. */
  lemma {:induction false} Utf16LengthAppend(a: string, b: string)
    ensures Utf16Length(a + b) == Utf16Length(a) + Utf16Length(b)
    decreases |a|
  {
    if |a| > 0 {
      assert (a + b)[0] == a[0] && (a + b)[1..] == a[1..] + b;
      Utf16LengthAppend(a[1..], b);
    } else {
      assert a + b == b;
    }
  }

  /** A string of the Basic Multilingual Plane has one code unit per character. */
  lemma {:induction false} Utf16LengthOfBmp(s: string)
    requires forall i :: 0 <= i < |s| ==> s[i] as int <= 0xFFFF
    ensures Utf16Length(s) == |s|
    decreases |s|
  {
    if |s| > 0 {
      assert forall i :: 0 <= i < |s[1..]| ==> s[1..][i] == s[i + 1];
      Utf16LengthOfBmp(s[1..]);
    }
  }

  /** `s.substring(0, n)`: the first `n` characters, or all of `s` when it is shorter. */
  function Prefix(s: string, n: nat): (r: string)
    ensures |r| == Min(|s|, n)
    ensures r <= s
  {
    if |s| <= n then s else s[..n]
  }

  /**
   `s.replace(/\D/g, '')` (and equally `s.replace(/[^0-9]/gi, '')`): every digit
   of `s`, with its multiplicity and in order, and nothing else.
   */
  function DigitsOnly(s: string): (r: string)
    ensures AllDigits(r)
    ensures |r| <= |s|
  {
    if |s| == 0 then ""
    else (if IsDigit(s[0]) then [s[0]] else "") + DigitsOnly(s[1..])
  }

  /** `s.replace(/\s/g, '')`: `s` with every whitespace character removed. */
  function StripWhitespace(s: string): (r: string)
    ensures NoWhitespace(r)
    ensures |r| <= |s|
  {
    if |s| == 0 then ""
    else (if IsWhitespace(s[0]) then "" else [s[0]]) + StripWhitespace(s[1..])
  }

  /** Removing the non-digits keeps every digit with its multiplicity. */
  lemma {:induction false} DigitsOnlyKeepsDigits(s: string)
    ensures forall c :: IsDigit(c) ==> multiset(DigitsOnly(s))[c] == multiset(s)[c]
    decreases |s|
  {
    if |s| > 0 {
      DigitsOnlyKeepsDigits(s[1..]);
      assert s == [s[0]] + s[1..];
    }
  }

  /** Removing the non-digits changes nothing in a string of digits. */
  lemma {:induction false} DigitsOnlyOfDigits(s: string)
    requires AllDigits(s)
    ensures DigitsOnly(s) == s
    decreases |s|
  {
    if |s| > 0 {
      assert AllDigits(s[1..]);
      DigitsOnlyOfDigits(s[1..]);
      assert s == [s[0]] + s[1..];
    }
  }

  /** Removing whitespace keeps every other character with its multiplicity. */
  lemma {:induction false} StripWhitespaceKeepsOthers(s: string)
    ensures forall c :: !IsWhitespace(c) ==> multiset(StripWhitespace(s))[c] == multiset(s)[c]
    decreases |s|
  {
    if |s| > 0 {
      StripWhitespaceKeepsOthers(s[1..]);
      assert s == [s[0]] + s[1..];
    }
  }

  /** Removing whitespace changes nothing in a string without whitespace. */
  lemma {:induction false} StripWhitespaceOfNone(s: string)
    requires NoWhitespace(s)
    ensures StripWhitespace(s) == s
    decreases |s|
  {
    if |s| > 0 {
      assert NoWhitespace(s[1..]);
      StripWhitespaceOfNone(s[1..]);
      assert s == [s[0]] + s[1..];
    }
  }

  /** Digits are not whitespace, so stripping whitespace changes nothing in a string of digits. */
  lemma StripWhitespaceOfDigits(s: string)
    requires AllDigits(s)
    ensures StripWhitespace(s) == s
  {
    assert NoWhitespace(s);
    StripWhitespaceOfNone(s);
  }

  /** Removing the non-digits of a concatenation removes them from each part. */
  lemma {:induction false} DigitsOnlyAppend(a: string, b: string)
    ensures DigitsOnly(a + b) == DigitsOnly(a) + DigitsOnly(b)
    decreases |a|
  {
    if |a| > 0 {
      assert (a + b)[1..] == a[1..] + b;
      DigitsOnlyAppend(a[1..], b);
    } else {
      assert a + b == b;
    }
  }

  /** Removing the whitespace of a concatenation removes it from each part. */
  lemma {:induction false} StripWhitespaceAppend(a: string, b: string)
    ensures StripWhitespace(a + b) == StripWhitespace(a) + StripWhitespace(b)
    decreases |a|
  {
    if |a| > 0 {
      var h := if IsWhitespace(a[0]) then "" else [a[0]];
      assert (a + b)[0] == a[0] && (a + b)[1..] == a[1..] + b;
      StripWhitespaceAppend(a[1..], b);
      assert StripWhitespace(a + b) == h + (StripWhitespace(a[1..]) + StripWhitespace(b));
      assert StripWhitespace(a) == h + StripWhitespace(a[1..]);
    } else {
      assert a + b == b;
    }
  }

  /** Whitespace holds no digit, so removing it before the non-digits changes nothing. */
  lemma {:induction false} DigitsOnlyAfterStrip(s: string)
    ensures DigitsOnly(StripWhitespace(s)) == DigitsOnly(s)
    decreases |s|
  {
    if |s| > 0 {
      DigitsOnlyAfterStrip(s[1..]);
      var h := if IsWhitespace(s[0]) then "" else [s[0]];
      DigitsOnlyAppend(h, StripWhitespace(s[1..]));
      if !IsWhitespace(s[0]) {
        assert h[1..] == "";
      }
    }
  }

  /** Every character is a digit or whitespace: what `/^\d+$/` accepts once `\s` is stripped. */
  predicate DigitsAndWhitespace(s: string) {
    forall i :: 0 <= i < |s| ==> IsDigit(s[i]) || IsWhitespace(s[i])
  }

  /** A string of digits and whitespace loses exactly its whitespace to either replacement. */
  lemma {:induction false} StripWhitespaceOfDigitsAndSpaces(s: string)
    requires DigitsAndWhitespace(s)
    ensures StripWhitespace(s) == DigitsOnly(s)
    decreases |s|
  {
    if |s| > 0 {
      assert DigitsAndWhitespace(s[1..]) by {
        forall i | 0 <= i < |s[1..]| ensures IsDigit(s[1..][i]) || IsWhitespace(s[1..][i]) {
          assert s[1..][i] == s[i + 1];
        }
      }
      StripWhitespaceOfDigitsAndSpaces(s[1..]);
    }
  }

  /** Stripping whitespace leaves only digits exactly when there was nothing but digits and whitespace. */
  lemma StripWhitespaceAllDigits(s: string)
    ensures AllDigits(StripWhitespace(s)) <==> DigitsAndWhitespace(s)
  {
    if DigitsAndWhitespace(s) {
      StripWhitespaceOfDigitsAndSpaces(s);
    } else {
      var k :| 0 <= k < |s| && !IsDigit(s[k]) && !IsWhitespace(s[k]);
      var c := s[k];
      StripWhitespaceKeepsOthers(s);
      assert c in multiset(s);
      assert c in multiset(StripWhitespace(s));
      assert c in StripWhitespace(s);
    }
  }
}

=== FILE: validators.dfy ===
/**
 The validators attached to the four controls of the payment form. Angular
 runs every validator of a control and merges the error keys they report, so
 a control's verdict is modelled as the set of its error keys: the control is
 valid exactly when the set is empty.
 */
module Validators {
  import opened Text

  datatype ErrorKey =
    | Required           // `Validators.required`
    | MinLength          // `Validators.minLength(2)`
    | Pattern            // `Validators.pattern(/^\d{3,4}$/)`
    | InvalidCardNumber  // `cardNumberValidator`
    | InvalidExpiry      // `expiryDateValidator`: malformed or month out of range
    | ExpiredCard        // `expiryDateValidator`: before the current month

  /** The wall clock when a validator runs: `getFullYear()` and `getMonth() + 1`. */
  datatype Clock = Clock(year: int, month: int)

  /** A clock reading of a real date: the month is 1..12. */
  predicate ValidClock(now: Clock) {
    1 <= now.month <= 12
  }

  /** `a` is no later than `b`, comparing the year first and then the month. */
  predicate NotLater(a: Clock, b: Clock) {
    a.year < b.year || (a.year == b.year && a.month <= b.month)
  }

  const CardHolderMinLength: nat := 2
  const MinCardDigits: nat := 13
  /** The longest card number: the validator's bound and the digits the card-number formatter keeps. */
  const MaxCardNumberDigits: nat := 19

  /** `Validators.required` on a string control: only the empty value fails. */
  function RequiredErrors(v: string): (e: set<ErrorKey>)
    ensures e == {} <==> |v| > 0
    ensures e <= {Required}
  {
    if |v| == 0 then {Required} else {}
  }

  // ---------------------------------------------------------------------------
  // Card holder: required, minLength(2)

  /**
   The card-holder errors: `required` for the empty name, `minlength` for a
   name of one UTF-16 code unit (`minLength` reads `length` and leaves the
   empty value to `required`). The name is not trimmed.
   */
  function CardHolderErrors(v: string): (e: set<ErrorKey>)
    ensures e == {} <==> Utf16Length(v) >= CardHolderMinLength
    ensures Required in e <==> |v| == 0
    ensures MinLength in e <==> Utf16Length(v) == 1
    ensures e <= {Required, MinLength}
  {
    Utf16LengthZero(v);
    RequiredErrors(v) + (if 0 < Utf16Length(v) < CardHolderMinLength then {MinLength} else {})
  }

  // ---------------------------------------------------------------------------
  // Card number: required, cardNumberValidator

  /** `/^\d{13,19}$/.test(v.replace(/\s/g, ''))` */
  predicate CardNumberPattern(v: string) {
    var s := StripWhitespace(v);
    AllDigits(s) && MinCardDigits <= |s| <= MaxCardNumberDigits
  }

  /** The card-number errors: `required` for the empty value, `invalidCardNumber` unless the pattern holds. */
  function CardNumberErrors(v: string): (e: set<ErrorKey>)
    ensures Required in e <==> |v| == 0
    ensures e <= {Required, InvalidCardNumber}
  {
    RequiredErrors(v) + (if CardNumberPattern(v) then {} else {InvalidCardNumber})
  }

  // ---------------------------------------------------------------------------
  // Expiry: required, expiryDateValidator

  function DigitValue(c: char): (n: nat)
    requires IsDigit(c)
    ensures n <= 9
  {
    (c as int - '0' as int) as nat
  }

  /** `/^\d{2}\/\d{2}$/.test(v)` */
  predicate ExpiryShaped(v: string) {
    |v| == 5 && IsDigit(v[0]) && IsDigit(v[1]) && v[2] == '/' && IsDigit(v[3]) && IsDigit(v[4])
  }

  /** `parseInt(month, 10)` of the two digits before the `/`. */
  function ExpiryMonth(v: string): (m: nat)
    requires ExpiryShaped(v)
    ensures m <= 99
  {
    10 * DigitValue(v[0]) + DigitValue(v[1])
  }

  /** `parseInt('20' + year, 10)` of the two digits after the `/`. */
  function ExpiryYear(v: string): (y: nat)
    requires ExpiryShaped(v)
    ensures 2000 <= y <= 2099
  {
    2000 + 10 * DigitValue(v[3]) + DigitValue(v[4])
  }

  /** `expiryDateValidator`: the shape first, then the month range, then expiry against the clock. */
  function ExpiryCheck(v: string, now: Clock): (e: set<ErrorKey>)
    ensures e == {} || e == {InvalidExpiry} || e == {ExpiredCard}
  {
    if !ExpiryShaped(v) then {InvalidExpiry}
    else if ExpiryMonth(v) < 1 || ExpiryMonth(v) > 12 then {InvalidExpiry}
    else if ExpiryYear(v) < now.year || (ExpiryYear(v) == now.year && ExpiryMonth(v) < now.month) then {ExpiredCard}
    else {}
  }

  /** The expiry errors: `required` for the empty value plus the verdict of the expiry validator. */
  function ExpiryErrors(v: string, now: Clock): (e: set<ErrorKey>)
    ensures Required in e <==> |v| == 0
    ensures e <= {Required, InvalidExpiry, ExpiredCard}
  {
    RequiredErrors(v) + ExpiryCheck(v, now)
  }

  /** A well-formed expiry: `MM/YY` with the month in 1..12 (whether it has passed is a matter of the clock). */
  predicate ExpiryWellFormed(v: string) {
    ExpiryShaped(v) && 1 <= ExpiryMonth(v) <= 12
  }

  // ---------------------------------------------------------------------------
  // CVV: required, pattern(/^\d{3,4}$/)

  /** The CVV errors: `required` for the empty value, `pattern` for any other value that is not three or four digits. */
  function CvvErrors(v: string): (e: set<ErrorKey>)
    ensures e == {} <==> AllDigits(v) && 3 <= |v| <= 4
    ensures Required in e <==> |v| == 0
    ensures Pattern in e <==> |v| > 0 && !(AllDigits(v) && 3 <= |v| <= 4)
    ensures e <= {Required, Pattern}
  {
    RequiredErrors(v) + (if |v| > 0 && !(AllDigits(v) && 3 <= |v| <= 4) then {Pattern} else {})
  }

  // ---------------------------------------------------------------------------
  // Properties

  /**
   A name of two blanks is a valid card holder: the name is not trimmed. A
   single character outside the Basic Multilingual Plane is two code units
   long, so it passes `minLength(2)`.
   */
  lemma BlankCardHolderAccepted()
    ensures CardHolderErrors("  ") == {}
    ensures CardHolderErrors(" ") == {MinLength}
    ensures CardHolderErrors("") == {Required}
    ensures CardHolderErrors("\U{1F600}") == {}
  {
    assert Utf16Length("\U{1F600}") == 2;
  }

  /**
   The card-number validator accepts exactly the values made of digits and
   whitespace that hold 13 to 19 digits.
   */
  lemma CardNumberAccepts(v: string)
    ensures CardNumberErrors(v) == {} <==> DigitsAndWhitespace(v) && MinCardDigits <= |DigitsOnly(v)| <= MaxCardNumberDigits
  {
    StripWhitespaceAllDigits(v);
    if DigitsAndWhitespace(v) {
      StripWhitespaceOfDigitsAndSpaces(v);
    }
  }

  /** On a string of digits the card-number validator is a length check: 12 and 20 digits fail, 13 and 19 pass. */
  lemma CardNumberDigitCount(d: string)
    requires AllDigits(d)
    ensures CardNumberErrors(d) == {} <==> MinCardDigits <= |d| <= MaxCardNumberDigits
  {
    StripWhitespaceOfDigits(d);
  }

  /** The empty card number fails both validators of its control. */
  lemma EmptyCardNumberRejected()
    ensures CardNumberErrors("") == {Required, InvalidCardNumber}
  {
    assert StripWhitespace("") == "";
  }

  /**
   The expiry validator rejects malformed input whatever the clock says, and
   rejects a well-formed month only for `expiredCard`.
   */
  lemma ExpiryRejectionOrder(v: string, now: Clock)
    ensures InvalidExpiry in ExpiryCheck(v, now) <==> !ExpiryWellFormed(v)
    ensures ExpiredCard in ExpiryCheck(v, now) ==> ExpiryWellFormed(v)
  {
  }

  /**
   Against a real clock, a well-formed expiry is accepted exactly when its
   month, counted from year zero, is not before the current one.
   */
  lemma ExpiryAcceptsByMonthCount(v: string, now: Clock)
    requires ValidClock(now)
    ensures ExpiryCheck(v, now) == {} <==>
      ExpiryWellFormed(v) && 12 * ExpiryYear(v) + ExpiryMonth(v) >= 12 * now.year + now.month
  {
    if ExpiryWellFormed(v) {
      var y, m := ExpiryYear(v), ExpiryMonth(v);
      if y < now.year {
        assert 12 * y + m <= 12 * (now.year - 1) + 12;
      } else if y > now.year {
        assert 12 * y + m >= 12 * (now.year + 1) + 1;
      }
    }
  }

  /** An expiry that has passed stays passed as the clock moves on; one accepted now was accepted earlier. */
  lemma ExpiryMonotone(v: string, earlier: Clock, later: Clock)
    requires NotLater(earlier, later)
    ensures ExpiredCard in ExpiryCheck(v, earlier) ==> ExpiredCard in ExpiryCheck(v, later)
    ensures ExpiryCheck(v, later) == {} ==> ExpiryCheck(v, earlier) == {}
  {
  }

  function DigitChar(n: nat): (c: char)
    requires n <= 9
    ensures IsDigit(c) && DigitValue(c) == n
  {
    ('0' as int + n) as char
  }

  /** `MM/YY` for a month of the years 2000..2099. */
  function ExpiryOf(year: int, month: int): (v: string)
    requires 2000 <= year <= 2099 && 1 <= month <= 12
    ensures ExpiryWellFormed(v) && ExpiryYear(v) == year && ExpiryMonth(v) == month
  {
    var yy := year - 2000;
    [DigitChar(month / 10), DigitChar(month % 10), '/', DigitChar(yy / 10), DigitChar(yy % 10)]
  }

  /** The current month is accepted and the month before it is `expiredCard`. */
  lemma ExpiryBoundary(now: Clock)
    requires 2000 <= now.year <= 2099 && ValidClock(now)
    ensures ExpiryErrors(ExpiryOf(now.year, now.month), now) == {}
    ensures now.month > 1 ==> ExpiryErrors(ExpiryOf(now.year, now.month - 1), now) == {ExpiredCard}
    ensures now.year > 2000 && now.month == 1 ==> ExpiryErrors(ExpiryOf(now.year - 1, 12), now) == {ExpiredCard}
  {
  }

  /**
   `01/99` is January 2099, so it is not expired before then; `00/30` and
   `13/30` are `invalidExpiry` whatever the clock.
   */
  lemma ExpiryExamples(now: Clock)
    ensures NotLater(now, Clock(2099, 1)) ==> ExpiryErrors("01/99", now) == {}
    ensures ExpiryErrors("13/30", now) == {InvalidExpiry}
    ensures ExpiryErrors("00/30", now) == {InvalidExpiry}
    ensures ExpiryErrors("1/30", now) == {InvalidExpiry}
    ensures ExpiryErrors("", now) == {Required, InvalidExpiry}
  {
    assert ExpiryShaped("01/99") && ExpiryMonth("01/99") == 1 && ExpiryYear("01/99") == 2099;
    assert ExpiryShaped("13/30") && ExpiryMonth("13/30") == 13;
    assert ExpiryShaped("00/30") && ExpiryMonth("00/30") == 0;
  }

  /** The expiry errors are exactly one of: none, `required` with `invalidExpiry`, `invalidExpiry`, `expiredCard`. */
  lemma ExpiryVerdicts(v: string, now: Clock)
    ensures var e := ExpiryErrors(v, now);
      e == {} || e == {Required, InvalidExpiry} || e == {InvalidExpiry} || e == {ExpiredCard}
  {
    if |v| == 0 {
      assert !ExpiryShaped(v);
      assert ExpiryErrors(v, now) == {Required} + {InvalidExpiry};
    } else {
      assert ExpiryErrors(v, now) == ExpiryCheck(v, now);
    }
  }
}
